=== FILE: README.md ===
# MOU and Course routes of the administrative REST backend, in Dafny

This project models the core of `admin_routes/api.js`, the Express server that
records university MOUs (memoranda of understanding with partner schools) and
Courses. Two creation routes keep denormalised counters next to the records:

- `POST /api/mous` stores an MOU and counts it against a School document named
  after the partner institution;
- `POST /api/courses` stores a Course and counts it against a Field document
  named after the course's field.

Each creation route does four things in order. It validates the request
members. It rejects a business key (`ID`) already stored. It runs
"find-or-create, else increment" on the School or Field. Then it stores the
record with its members trimmed. The read routes filter the same collections.

The document store is replaced by an immutable `State`. It holds the MOUs, the
Courses, the Schools and the Fields, each as a sequence in store order. Every
route is a pure function from the state and the request to a status code, a
`success` flag and the next state. The store's own behaviour is a parameter of
each creation route (`StoreReplies`). It gives the id of a newly created
School or Field, and it says how the aggregate `save()` and the record
`save()` end: stored, duplicate key (code 11000), `ValidationError`, or any
other error. Date parsing is a parameter `string -> Option<int>`.

Modules, leaf first:

- `Wrappers`: `Option`.
- `Text`: JavaScript `trim` (ECMAScript whitespace and line terminators).
- `Query`: the store queries `find(filter)` (`Select`) and `findOne(filter)` (`FirstIndex`).
- `Counters`: School/Field aggregates and the find-or-create-else-increment step (`Bump`).
- `Model`: documents, state, request bodies, store replies, status codes.
- `MouRoutes`: `POST /api/mous`, as written.
- `CourseRoutes`: `POST /api/courses`, as written.
- `ReadRoutes`: the GET routes.
- `Consistency`: the counter invariant, and what the written routes do to it.
- `Corrected`: the corrected routes, their proofs, and the inputs that separate them from the written ones.
- `Sessions`: runs of requests against one store.

The store invariant (`Consistency.Consistent`) has four parts:

- each School name has one School, whose count is the number of MOUs naming it;
- the same holds for Fields and Courses;
- MOU `ID`s are unique;
- Course `ID`s are unique.

The routes as written keep it only under two extra conditions: the request's
`ID` is already trimmed, and the record write does not fail. The Findings
below give the inputs that break it otherwise.

## Model

| member | source | states |
|---|---|---|
| `Text.Trim` | admin_routes/api.js:207 | `trim()` returns a string with no whitespace at either end, never longer than its input |
| `Text.TrimIsCore` | admin_routes/api.js:223-225 | the trimmed value is a contiguous slice of the input, and only whitespace lies around it |
| `Text.TrimEmptyIffBlank` | admin_routes/api.js:192-207 | a member made only of whitespace passes the truthiness check but trims to the empty string, and only such members do |
| `Text.TrimFixedIffTrimmed` | admin_routes/api.js:199-223 | `trim()` leaves a string unchanged exactly when it has no whitespace at either end, so the raw key and the stored key coincide exactly then |
| `Text.TrimIdempotent` | admin_routes/api.js:207 | trimming an already trimmed name changes nothing |
| `Text.TrimDropsLeadingSpace` | admin_routes/api.js:223 | a leading whitespace character never reaches the stored key |
| `Query.SelectExact` | admin_routes/api.js:43 | `find(filter)` returns exactly the documents that satisfy the filter, each as often as it is stored |
| `Query.SelectAppend` | admin_routes/api.js:228 | storing one more document adds it to the end of every query result it satisfies, and changes no other result |
| `Query.SelectSplit` | admin_routes/api.js:43-111 | two complementary filters together return every document once |
| `Query.FirstIndex` | admin_routes/api.js:208 | `findOne(filter)` gives the first document that satisfies the filter, or none when no document does |
| `Counters.Bump` | admin_routes/api.js:207-220 | an unseen name gets one new aggregate with count 1 and the store's new id; a seen name keeps its aggregates in place; every aggregate with another name is untouched |
| `Counters.BumpTotals` | admin_routes/api.js:207-220 | each creation adds exactly 1 to the count of its own name and 0 to every other name, and the name then has an aggregate |
| `Counters.BumpKeepsNamesUnique` | admin_routes/api.js:208-215 | find-or-create never makes a second aggregate for a name |
| `Counters.BumpUnique` | admin_routes/api.js:209-219 | with unique names, the one aggregate of a seen name has its count raised by exactly 1; an unseen name gets exactly one aggregate with count 1 |
| `Model.ErrorStatus` | admin_routes/api.js:236-254 | the catch block answers 409 exactly for a duplicate-key error, 400 exactly for a validation error, 500 otherwise |
| `MouRoutes.MouRecord` | admin_routes/api.js:207-226 | each stored member is the request's member with only whitespace cut from either end, and the partner name is the trimmed name the School is counted under |
| `MouRoutes.MouRecordKeepsIff` | admin_routes/api.js:222-226 | the stored MOU equals the request's members exactly when none of them has surrounding whitespace |
| `MouRoutes.MouRecordResubmit` | admin_routes/api.js:222-226 | sending a stored MOU's members back builds the same MOU again |
| `MouRoutes.CreateMou` | admin_routes/api.js:187-256 | missing or empty member gives 400 and no write; a stored raw `ID` gives 409 and no write; a failed School write writes nothing; a request that passes both checks with the School write saved has its School found-or-created and incremented; with both writes saved it gets 201; only 201 appends exactly one MOU; a failed MOU write keeps the School write; Courses and Fields are never touched |
| `CourseRoutes.TrimAll` | admin_routes/api.js:339 | the stored departments have the input's length and order, each one trimmed |
| `CourseRoutes.CompletedOrNo` | admin_routes/api.js:342 | `completed` is stored as sent when truthy and as "no" otherwise |
| `CourseRoutes.CourseRecord` | admin_routes/api.js:300-344 | the stored `ID`, `Name` and `field` are the request's members with only whitespace cut from either end; the departments are each sent department trimmed, in order; the dates are the parsed dates, start before end; `completed` is the sent value or "no" |
| `CourseRoutes.TrimAllFixedIff` | admin_routes/api.js:339 | trimming every department leaves the list as sent exactly when no department has surrounding whitespace |
| `CourseRoutes.CourseRecordKeepsIff` | admin_routes/api.js:336-339 | the stored `ID`, `Name`, `field` and departments equal the request's exactly when none of them has surrounding whitespace |
| `CourseRoutes.CreateCourse` | admin_routes/api.js:262-376 | missing member, or departments not a non-empty array, gives 400; a stored raw `ID` gives 409, checked before the dates; an unparsable date, or a start not before the end, gives 400; none of these write anything; a request that passes every check with the Field write saved has its Field found-or-created and incremented; with both writes saved it gets 201; only 201 appends exactly one Course; MOUs and Schools are never touched |
| `ReadRoutes.FindById` | admin_routes/api.js:159 | `findById` finds nothing exactly when no stored id names the same object id as the parameter, hex digits compared without regard to case; otherwise it returns the first stored aggregate whose id does |
| `ReadRoutes.FindByIdIgnoresCase` | admin_routes/api.js:159 | the lookup gives the same result for any spelling of the id's hex digits |
| `ReadRoutes.UpperCaseFieldIdFound` | admin_routes/api.js:154-176 | a Field stored under `65a1f0c2e4b0a1b2c3d4e5f6` is found, with 200, when the path spells the id `65A1F0C2E4B0A1B2C3D4E5F6` |
| `ReadRoutes.ListMous` | admin_routes/api.js:24-31 | every MOU in store order, with `count` equal to the number returned |
| `ReadRoutes.RunningCourses` | admin_routes/api.js:41-48 | exactly the Courses whose `completed` is "no", with `count` equal to the number returned |
| `ReadRoutes.CompletedCourses` | admin_routes/api.js:109-117 | exactly the Courses whose `completed` is "yes", with `count` equal to the number returned |
| `ReadRoutes.RunningCompletedPartition` | admin_routes/api.js:41-117 | no Course is both running and completed; when every stored flag is "yes" or "no", the two counts add up to the number of Courses |
| `ReadRoutes.ActiveSchools` | admin_routes/api.js:58-74 | each School with a positive count has its link listed exactly as often as it is stored, and no other School has a link; each link points at `/api/schools/<id>`, and `count` is the number of links |
| `ReadRoutes.SchoolMous` | admin_routes/api.js:86-98 | exactly the MOUs whose partner name equals the path parameter as written, with `count` equal to the number returned |
| `ReadRoutes.ListFields` | admin_routes/api.js:127-143 | one link per Field, in store order, pointing at `/api/fields/<id>` |
| `ReadRoutes.FieldDetail` | admin_routes/api.js:154-183 | an id that cannot be cast gives 500; an id naming no stored Field, whatever the case of its hex digits, gives 404; otherwise the Field with that object id and exactly the Courses whose `field` is its name, with `coursesCount` equal to their number |
| `Consistency.SchoolsAgreeMeans` | admin_routes/api.js:207-220 | under the invariant, each School's count is the number of MOUs naming it, and every MOU's partner has a School |
| `Consistency.FieldsAgreeMeans` | admin_routes/api.js:319-333 | under the invariant, each Field's count is the number of Courses in it, and every Course's field has a Field |
| `Consistency.CreateMouCounterDelta` | admin_routes/api.js:199-220 | a School count moves by exactly 1, for the trimmed partner name, and only when the request passed validation and the duplicate check and the School write succeeded |
| `Consistency.CreateMouAgreementIff` | admin_routes/api.js:207-228 | from agreeing counters, the School counters still agree after the request exactly when it did not stop between the School write and the MOU write |
| `Consistency.CreateMouKeepsIdsUnique` | admin_routes/api.js:199-223 | with an already-trimmed `ID`, MOU keys stay unique |
| `Consistency.CreateMouKeepsConsistent` | admin_routes/api.js:187-234 | with an already-trimmed `ID` and a successful MOU write, the whole store invariant is kept |
| `Consistency.FailedMouSaveOvercounts` | admin_routes/api.js:207-228 | a failed MOU write after the School write answers an error, stores no MOU, and leaves the School count one above the MOUs naming it |
| `Consistency.CreateCourseCounterDelta` | admin_routes/api.js:292-333 | a Field count moves by exactly 1, for the trimmed field name, and only when the request passed every check and the Field write succeeded |
| `Consistency.CreateCourseAgreementIff` | admin_routes/api.js:319-347 | from agreeing counters, the Field counters still agree after the request exactly when it did not stop between the Field write and the Course write |
| `Consistency.CreateCourseKeepsIdsUnique` | admin_routes/api.js:292-337 | with an already-trimmed `ID`, Course keys stay unique |
| `Consistency.CreateCourseKeepsConsistent` | admin_routes/api.js:262-354 | with an already-trimmed `ID` and a successful Course write, the whole store invariant is kept |
| `Consistency.FailedCourseSaveOvercounts` | admin_routes/api.js:319-347 | a failed Course write after the Field write answers an error, stores no Course, and leaves the Field count one above the Courses in it |
| `Corrected.CreateMouFixed` | admin_routes/api.js:187-256 | the corrected MOU route checks the trimmed `ID` and commits both writes or neither, so every refusal leaves the store unchanged; each refusal has the written route's status, and a complete request with a fresh trimmed `ID` and both writes saved gets 201 |
| `Corrected.CreateCourseFixed` | admin_routes/api.js:262-376 | the corrected Course route checks the trimmed `ID` and commits both writes or neither, so every refusal leaves the store unchanged; each refusal has the written route's status, and a request passing every check with both writes saved gets 201 |
| `Corrected.CreateMouFixedKeepsConsistent` | admin_routes/api.js:187-256 | the corrected MOU route keeps the store invariant for every request and every store reply |
| `Corrected.CreateCourseFixedKeepsConsistent` | admin_routes/api.js:262-376 | the corrected Course route keeps the store invariant for every request and every store reply |
| `Corrected.CreateMouFixedMatchesWritten` | admin_routes/api.js:199-234 | with a trimmed `ID` and both writes succeeding, the corrected and the written MOU routes agree |
| `Corrected.CreateCourseFixedMatchesWritten` | admin_routes/api.js:292-354 | with a trimmed `ID` and both writes succeeding, the corrected and the written Course routes agree |
| `Corrected.PaddedPassesCheck` | admin_routes/api.js:199-223 | a stored key sent with a leading space passes the duplicate check, and the route then stores that same key |
| `Corrected.PaddedDuplicateStored` | admin_routes/api.js:199-234 | that request gets 201 and leaves two MOUs with the same `ID` |
| `Corrected.PaddedDuplicateOvercounts` | admin_routes/api.js:199-242 | when a unique index rejects that MOU write, the answer is 409 but the School count has already risen |
| `Corrected.PaddedDuplicateFixed` | admin_routes/api.js:199-205 | the corrected route refuses that request with 409 and writes nothing |
| `Corrected.PaddedCoursePassesCheck` | admin_routes/api.js:292-337 | a stored Course key sent with a leading space passes the duplicate check, and the route then stores that same key |
| `Corrected.PaddedCourseStored` | admin_routes/api.js:292-354 | that request gets 201 and leaves two Courses with the same `ID` |
| `Corrected.PaddedCourseOvercounts` | admin_routes/api.js:292-362 | when a unique index rejects that Course write, the answer is 409 but the Field count has already risen |
| `Corrected.PaddedCourseFixed` | admin_routes/api.js:292-298 | the corrected route refuses that request with 409 and writes nothing |
| `Corrected.SchoolMousFixed` | admin_routes/api.js:86-98 | the corrected School route gives 500 for an id that cannot be cast and 404 for an id naming no stored School, whatever the case of its hex digits; otherwise 200 with that School and exactly the MOUs naming it, each as often as it is stored |
| `Corrected.ActiveLinkFixedCountMatches` | admin_routes/api.js:58-98 | under the invariant, and with no two Schools naming the same object id, following an active School's link through the corrected route lists as many MOUs as the link's count says |
| `Corrected.ActiveLinkFindsNothing` | admin_routes/api.js:67-91 | as written, when no School is named after another School's id, following that School's link lists no MOU, whatever its count |
| `Corrected.ActiveLinkExample` | admin_routes/api.js:58-97 | a store whose active listing shows one School with count 1: the written route lists 0 MOUs for its link, and the corrected route lists 1 |
| `Sessions.ReplayKeepsConsistent` | admin_routes/api.js:187-376 | the written routes keep the store invariant over any run of requests with trimmed `ID`s and successful record writes |
| `Sessions.ReplayFixedKeepsConsistent` | admin_routes/api.js:187-376 | the corrected routes keep the store invariant over any run of requests, whatever the store replies |
| `Sessions.RepeatedSchoolScenario` | admin_routes/api.js:199-228 | from an empty store: the first MOU for a school gives 201 and count 1; the same `ID` again gives 409 and changes nothing; a second `ID` for the school gives 201 and count 2 |

## Left out

- Express setup, the database connection, `app.listen` and JSON serialisation (admin_routes/api.js:1-21, 378-380) are I/O plumbing. Only the status code, the `success` flag, the returned data and the state change are modelled.
- The Mongoose schemas under `models/` are not part of this model. Their unique indexes, validators and `trim`/enum options appear only through the abstract save outcomes in `StoreReplies`.
- Request members that are not strings are not modelled; every member is a string or absent. In the code, `.trim()` on a non-string throws, and the catch block answers 500. For `nameOfPartnerInstitution` (admin_routes/api.js:207) and `field` (:319), that happens before the counter write. For the MOU's `ID` and `strategicAreas` (:223, :225), and the Course's `ID`, `Name` and departments (:337-339), it happens after the School or Field save (:215/:219, :328/:332), so the count stays raised. `startDate`, `endDate` and `completed` are never trimmed. A JSON number date is accepted by `new Date(...)` (:301-302) and can reach 201, and a non-string `completed`, such as `true`, is stored as sent (:342).
- Query-side casting of `ID` by Mongoose is not modelled. The duplicate check compares the raw `ID` with the stored keys.
- A failure of a store read (`find`, `findOne`, `findById`) answers 500 and changes nothing. It is not modelled; reads always succeed.
- `Date` parsing and comparison are foreign library code. A date is an optional integer timestamp, and parsing is a parameter.
- `ReadRoutes.IsObjectId`: accepts exactly 24 hex digits. The BSON library also casts some 12-character strings; that case is not modelled.
- The concurrent read-then-write race on the counters is not modelled. Each request is handled atomically, one after another.
- Login, registration, email confirmation and bearer-token checks are not in `admin_routes/api.js`, so they are not part of this model.
- Response echoes that carry no state, such as `schoolId` in the School detail reply, are not modelled.
- In the Field detail route, a path id that cannot be cast makes `findById` throw a `CastError` (admin_routes/api.js:159), and the catch block answers 500 (:177-182). `ReadRoutes.FieldDetail` gives 500 as well, and the corrected School route does the same.

## Findings

| source | as written | input that shows it | evidently intended | confidence | as-written member | corrected member |
|---|---|---|---|---|---|---|
| admin_routes/api.js:199 | the duplicate check looks up the raw `ID`, but line 223 stores `ID.trim()` | stored MOU `M1`, request `ID` `" M1"` | check the trimmed `ID`, the key that is stored | not executed; medium, since an unseen schema `trim` option would also trim the query value | `Corrected.PaddedDuplicateStored`, `Corrected.PaddedDuplicateOvercounts` | `Corrected.CreateMouFixed`, `Corrected.PaddedDuplicateFixed` |
| admin_routes/api.js:292 | the same raw-`ID` check for Courses, against `ID.trim()` stored at line 337 | stored Course `C1`, request `ID` `" C1"` with valid dates | check the trimmed `ID` | not executed; medium, for the same reason | `Corrected.PaddedCourseStored`, `Corrected.PaddedCourseOvercounts` | `Corrected.CreateCourseFixed`, `Corrected.PaddedCourseFixed` |
| admin_routes/api.js:207-228 | the School count is saved before the MOU, and a failed MOU save is not undone | a new MOU whose save fails with a validation error | School and MOU written together or not at all, so each count equals the MOUs naming it | not executed; high | `Consistency.FailedMouSaveOvercounts` | `Corrected.CreateMouFixedKeepsConsistent` |
| admin_routes/api.js:319-347 | the Field count is saved before the Course, and a failed Course save is not undone | a new Course whose save fails with a validation error | Field and Course written together or not at all | not executed; high | `Consistency.FailedCourseSaveOvercounts` | `Corrected.CreateCourseFixedKeepsConsistent` |
| admin_routes/api.js:91 | the School detail route matches MOU partner names against the School id that the active link carries (line 67) | School `Acme U` with id `65a1f0c2e4b0a1b2c3d4e5f6`, count 1, one MOU naming it; its link lists no MOU | look the School up by id, then list the MOUs naming it, as the Field detail route does | not executed; high | `Corrected.ActiveLinkFindsNothing`, `Corrected.ActiveLinkExample` | `Corrected.SchoolMousFixed`, `Corrected.ActiveLinkFixedCountMatches` |

=== FILE: consistency.dfy ===
/** The consistency the denormalised counters are meant to keep, and what the
    two creation routes, as written, do to it. */
module Consistency {
  import opened Text
  import opened Query
  import opened Counters
  import opened Model
  import opened MouRoutes
  import opened CourseRoutes

  /** One School per name, and every name's School count is the number of
      MOUs naming it (so an MOU's partner always has a School). */
  ghost predicate SchoolsAgree(st: State) {
    && KeysUnique(st.schools, NameOf)
    && forall n :: Total(st.schools, n) == |Select(st.mous, ForSchool(n))|
  }

  /** One Field per name, and every name's Field count is the number of
      Courses in that field. */
  ghost predicate FieldsAgree(st: State) {
    && KeysUnique(st.fields, NameOf)
    && forall n :: Total(st.fields, n) == |Select(st.courses, InField(n))|
  }

  lemma AppendKeepsMouIdsUnique(mous: seq<Mou>, m: Mou)
    requires KeysUnique(mous, MouKey) && !HasMouId(mous, m.id)
    ensures KeysUnique(mous + [m], MouKey)
  {
  }

  lemma AppendKeepsCourseIdsUnique(courses: seq<Course>, c: Course)
    requires KeysUnique(courses, CourseKey) && !HasCourseId(courses, c.id)
    ensures KeysUnique(courses + [c], CourseKey)
  {
  }

  /** The store invariant: counters agree with the records, business keys are
      unique. */
  ghost predicate Consistent(st: State) {
    SchoolsAgree(st) && FieldsAgree(st) && KeysUnique(st.mous, MouKey) && KeysUnique(st.courses, CourseKey)
  }

  /** Read in terms of the stored Schools: each one's count is the number of
      MOUs naming it, and each MOU's partner has a School. */
  lemma SchoolsAgreeMeans(st: State)
    requires SchoolsAgree(st)
    ensures forall i :: 0 <= i < |st.schools| ==>
              st.schools[i].count == |Select(st.mous, ForSchool(st.schools[i].name))|
    ensures forall m :: m in st.mous ==> m.partnerInstitution in Names(st.schools)
  {
    forall i | 0 <= i < |st.schools|
      ensures st.schools[i].count == |Select(st.mous, ForSchool(st.schools[i].name))|
    {
      TotalOfUnique(st.schools, i);
    }
    forall m | m in st.mous ensures m.partnerInstitution in Names(st.schools) {
      var n := m.partnerInstitution;
      SelectExact(st.mous, ForSchool(n));
      assert m in Select(st.mous, ForSchool(n));
      if n !in Names(st.schools) {
        TotalAbsent(st.schools, n);
      }
    }
  }

  /** Read in terms of the stored Fields, as above. */
  lemma FieldsAgreeMeans(st: State)
    requires FieldsAgree(st)
    ensures forall i :: 0 <= i < |st.fields| ==>
              st.fields[i].count == |Select(st.courses, InField(st.fields[i].name))|
    ensures forall c :: c in st.courses ==> c.field in Names(st.fields)
  {
    forall i | 0 <= i < |st.fields|
      ensures st.fields[i].count == |Select(st.courses, InField(st.fields[i].name))|
    {
      TotalOfUnique(st.fields, i);
    }
    forall c | c in st.courses ensures c.field in Names(st.fields) {
      var n := c.field;
      SelectExact(st.courses, InField(n));
      assert c in Select(st.courses, InField(n));
      if n !in Names(st.fields) {
        TotalAbsent(st.fields, n);
      }
    }
  }

  // ---------------------------------------------------------------------
  // POST /api/mous

  /** A School total moves by exactly one, for the trimmed partner name, and
      only when the request reached the School write and that write succeeded
      (whatever then happened to the MOU write). */
  lemma CreateMouCounterDelta(st: State, req: MouRequest, rep: StoreReplies)
    ensures var r := CreateMou(st, req, rep);
      forall n :: Total(r.next.schools, n)
               == Total(st.schools, n)
                  + (if MouReachesCounter(st, req) && rep.counterSave == Saved
                        && n == Trim(req.partnerInstitution.s) then 1 else 0)
  {
    if MouReachesCounter(st, req) && rep.counterSave == Saved {
      BumpTotals(st.schools, Trim(req.partnerInstitution.s), rep.newId);
    }
  }

  /** From agreeing counters, the School counters still agree after the
      request exactly when it did not stop between the School write and the
      MOU write. */
  lemma CreateMouAgreementIff(st: State, req: MouRequest, rep: StoreReplies)
    requires SchoolsAgree(st)
    ensures SchoolsAgree(CreateMou(st, req, rep).next)
        <==> !(MouReachesCounter(st, req) && rep.counterSave == Saved && rep.recordSave != Saved)
  {
    var r := CreateMou(st, req, rep);
    if MouReachesCounter(st, req) && rep.counterSave == Saved {
      var name := Trim(req.partnerInstitution.s);
      CreateMouCounterDelta(st, req, rep);
      BumpKeepsNamesUnique(st.schools, name, rep.newId);
      if rep.recordSave == Saved {
        var m := MouRecord(req);
        forall n ensures Total(r.next.schools, n) == |Select(r.next.mous, ForSchool(n))| {
          SelectAppend(st.mous, m, ForSchool(n));
        }
      } else {
        assert Total(r.next.schools, name) != |Select(r.next.mous, ForSchool(name))|;
      }
    }
  }

  /** When the request's `ID` is already trimmed, the raw-ID duplicate check
      is the check on the stored key, so MOU IDs stay unique. */
  lemma CreateMouKeepsIdsUnique(st: State, req: MouRequest, rep: StoreReplies)
    requires KeysUnique(st.mous, MouKey)
    requires req.id.Text? ==> IsTrimmed(req.id.s)
    ensures KeysUnique(CreateMou(st, req, rep).next.mous, MouKey)
  {
    var r := CreateMou(st, req, rep);
    if r.status == Created {
      var m := MouRecord(req);
      TrimFixedIffTrimmed(req.id.s);
      assert m.id == req.id.s;
      assert !HasMouId(st.mous, m.id);
      AppendKeepsMouIdsUnique(st.mous, m);
    }
  }

  /** The store invariant survives an MOU request whose `ID` is already
      trimmed and whose MOU write does not fail. */
  lemma CreateMouKeepsConsistent(st: State, req: MouRequest, rep: StoreReplies)
    requires Consistent(st)
    requires req.id.Text? ==> IsTrimmed(req.id.s)
    requires rep.recordSave == Saved
    ensures Consistent(CreateMou(st, req, rep).next)
  {
    CreateMouAgreementIff(st, req, rep);
    CreateMouKeepsIdsUnique(st, req, rep);
  }

  /** An MOU request that reaches the School write but whose MOU write fails
      leaves a School count one ahead of the MOUs naming it. */
  lemma FailedMouSaveOvercounts(st: State, req: MouRequest, rep: StoreReplies)
    requires SchoolsAgree(st)
    requires MouReachesCounter(st, req) && rep.counterSave == Saved && rep.recordSave != Saved
    ensures var r := CreateMou(st, req, rep);
      && r.status != Created
      && r.next.mous == st.mous
      && Total(r.next.schools, Trim(req.partnerInstitution.s))
         == |Select(r.next.mous, ForSchool(Trim(req.partnerInstitution.s)))| + 1
  {
    CreateMouCounterDelta(st, req, rep);
  }

  // ---------------------------------------------------------------------
  // POST /api/courses

  /** A Field total moves by exactly one, for the trimmed field name, and
      only when the request reached the Field write and that write succeeded. */
  lemma CreateCourseCounterDelta(st: State, req: CourseRequest, parse: DateParser, rep: StoreReplies)
    ensures var r := CreateCourse(st, req, parse, rep);
      forall n :: Total(r.next.fields, n)
               == Total(st.fields, n)
                  + (if CourseReachesCounter(st, req, parse) && rep.counterSave == Saved
                        && n == Trim(req.field.s) then 1 else 0)
  {
    if CourseReachesCounter(st, req, parse) && rep.counterSave == Saved {
      BumpTotals(st.fields, Trim(req.field.s), rep.newId);
    }
  }

  /** From agreeing counters, the Field counters still agree after the
      request exactly when it did not stop between the Field write and the
      Course write. */
  lemma CreateCourseAgreementIff(st: State, req: CourseRequest, parse: DateParser, rep: StoreReplies)
    requires FieldsAgree(st)
    ensures FieldsAgree(CreateCourse(st, req, parse, rep).next)
        <==> !(CourseReachesCounter(st, req, parse) && rep.counterSave == Saved && rep.recordSave != Saved)
  {
    var r := CreateCourse(st, req, parse, rep);
    if CourseReachesCounter(st, req, parse) && rep.counterSave == Saved {
      var name := Trim(req.field.s);
      CreateCourseCounterDelta(st, req, parse, rep);
      BumpKeepsNamesUnique(st.fields, name, rep.newId);
      if rep.recordSave == Saved {
        var c := CourseRecord(req, parse);
        forall n ensures Total(r.next.fields, n) == |Select(r.next.courses, InField(n))| {
          SelectAppend(st.courses, c, InField(n));
        }
      } else {
        assert Total(r.next.fields, name) != |Select(r.next.courses, InField(name))|;
      }
    }
  }

  /** When the request's `ID` is already trimmed, Course IDs stay unique. */
  lemma CreateCourseKeepsIdsUnique(st: State, req: CourseRequest, parse: DateParser, rep: StoreReplies)
    requires KeysUnique(st.courses, CourseKey)
    requires req.id.Text? ==> IsTrimmed(req.id.s)
    ensures KeysUnique(CreateCourse(st, req, parse, rep).next.courses, CourseKey)
  {
    var r := CreateCourse(st, req, parse, rep);
    if r.status == Created {
      var c := CourseRecord(req, parse);
      TrimFixedIffTrimmed(req.id.s);
      assert c.id == req.id.s;
      assert !HasCourseId(st.courses, c.id);
      AppendKeepsCourseIdsUnique(st.courses, c);
    }
  }

  /** The store invariant survives a Course request whose `ID` is already
      trimmed and whose Course write does not fail. */
  lemma CreateCourseKeepsConsistent(st: State, req: CourseRequest, parse: DateParser, rep: StoreReplies)
    requires Consistent(st)
    requires req.id.Text? ==> IsTrimmed(req.id.s)
    requires rep.recordSave == Saved
    ensures Consistent(CreateCourse(st, req, parse, rep).next)
  {
    CreateCourseAgreementIff(st, req, parse, rep);
    CreateCourseKeepsIdsUnique(st, req, parse, rep);
  }

  /** A Course request that reaches the Field write but whose Course write
      fails leaves a Field count one ahead of the Courses in that field. */
  lemma FailedCourseSaveOvercounts(st: State, req: CourseRequest, parse: DateParser, rep: StoreReplies)
    requires FieldsAgree(st)
    requires CourseReachesCounter(st, req, parse) && rep.counterSave == Saved && rep.recordSave != Saved
    ensures var r := CreateCourse(st, req, parse, rep);
      && r.status != Created
      && r.next.courses == st.courses
      && Total(r.next.fields, Trim(req.field.s))
         == |Select(r.next.courses, InField(Trim(req.field.s)))| + 1
  {
    CreateCourseCounterDelta(st, req, parse, rep);
  }
}

=== FILE: corrected.dfy ===
/** The creation routes and the School detail route as they are evidently
    meant to behave, with the properties the written versions lack proved
    about them, and the inputs that separate the two. */
module Corrected {
  import opened Wrappers
  import opened Text
  import opened Query
  import opened Counters
  import opened Model
  import opened MouRoutes
  import opened CourseRoutes
  import opened ReadRoutes
  import opened Consistency

  // ---------------------------------------------------------------------
  // Creation: duplicate check on the stored (trimmed) key, and the
  // aggregate write and the record write committed together.

  /** A complete MOU request whose trimmed `ID` is not stored yet. */
  predicate MouFresh(st: State, req: MouRequest) {
    MouComplete(req) && !HasMouId(st.mous, Trim(req.id.s))
  }

  /** A complete Course request with listed departments whose trimmed `ID`
      is not stored yet. */
  predicate CourseFresh(st: State, req: CourseRequest) {
    CourseComplete(req) && DepartmentsListed(req) && !HasCourseId(st.courses, Trim(req.id.s))
  }

  function CreateMouFixed(st: State, req: MouRequest, rep: StoreReplies): (r: Handled<Mou>)
    ensures r.success <==> r.status == Created
    ensures r.created.Some? <==> r.status == Created
    // any refusal leaves the whole store as it was
    ensures r.status != Created ==> r.next == st
    ensures !MouComplete(req) ==> r.status == BadRequest
    ensures MouComplete(req) && HasMouId(st.mous, Trim(req.id.s)) ==> r.status == Conflict
    ensures MouFresh(st, req) && rep.counterSave != Saved ==> r.status == ErrorStatus(rep.counterSave)
    ensures MouFresh(st, req) && rep.counterSave == Saved && rep.recordSave != Saved ==>
              r.status == ErrorStatus(rep.recordSave)
    // a complete, fresh request whose writes both succeed is stored
    ensures MouFresh(st, req) && rep.counterSave == Saved && rep.recordSave == Saved ==> r.status == Created
    ensures r.status == Created ==>
              && MouComplete(req) && !HasMouId(st.mous, MouRecord(req).id)
              && r.created == Some(MouRecord(req))
              && r.next == st.(mous := st.mous + [MouRecord(req)],
                               schools := Bump(st.schools, Trim(req.partnerInstitution.s), rep.newId))
  {
    if !MouComplete(req) then
      Refuse(BadRequest, st)
    else if HasMouId(st.mous, Trim(req.id.s)) then
      Refuse(Conflict, st)
    else if rep.counterSave != Saved then
      Refuse(ErrorStatus(rep.counterSave), st)
    else if rep.recordSave != Saved then
      Refuse(ErrorStatus(rep.recordSave), st)
    else
      var mou := MouRecord(req);
      Handled(Created, true, Some(mou),
              st.(mous := st.mous + [mou],
                  schools := Bump(st.schools, Trim(req.partnerInstitution.s), rep.newId)))
  }

  function CreateCourseFixed(st: State, req: CourseRequest, parse: DateParser, rep: StoreReplies): (r: Handled<Course>)
    ensures r.success <==> r.status == Created
    ensures r.created.Some? <==> r.status == Created
    ensures r.status != Created ==> r.next == st
    ensures !CourseComplete(req) || !DepartmentsListed(req) ==> r.status == BadRequest
    ensures CourseComplete(req) && DepartmentsListed(req) && HasCourseId(st.courses, Trim(req.id.s)) ==>
              r.status == Conflict
    ensures CourseFresh(st, req) && !DatesOrdered(req, parse) ==> r.status == BadRequest
    ensures CourseFresh(st, req) && DatesOrdered(req, parse) && rep.counterSave != Saved ==>
              r.status == ErrorStatus(rep.counterSave)
    ensures CourseFresh(st, req) && DatesOrdered(req, parse) && rep.counterSave == Saved && rep.recordSave != Saved ==>
              r.status == ErrorStatus(rep.recordSave)
    // every check passes and both writes succeed: the Course is stored
    ensures CourseFresh(st, req) && DatesOrdered(req, parse) && rep.counterSave == Saved && rep.recordSave == Saved ==>
              r.status == Created
    ensures r.status == Created ==>
              && CourseComplete(req) && DepartmentsListed(req) && DatesOrdered(req, parse)
              && !HasCourseId(st.courses, CourseRecord(req, parse).id)
              && r.created == Some(CourseRecord(req, parse))
              && r.next == st.(courses := st.courses + [CourseRecord(req, parse)],
                               fields := Bump(st.fields, Trim(req.field.s), rep.newId))
  {
    if !CourseComplete(req) || !DepartmentsListed(req) then
      Refuse(BadRequest, st)
    else if HasCourseId(st.courses, Trim(req.id.s)) then
      Refuse(Conflict, st)
    else if !DatesOrdered(req, parse) then
      Refuse(BadRequest, st)
    else if rep.counterSave != Saved then
      Refuse(ErrorStatus(rep.counterSave), st)
    else if rep.recordSave != Saved then
      Refuse(ErrorStatus(rep.recordSave), st)
    else
      var course := CourseRecord(req, parse);
      Handled(Created, true, Some(course),
              st.(courses := st.courses + [course],
                  fields := Bump(st.fields, Trim(req.field.s), rep.newId)))
  }

  /** The corrected MOU route keeps the store invariant for every request and
      every store reply. */
  lemma {:induction false} CreateMouFixedKeepsConsistent(st: State, req: MouRequest, rep: StoreReplies)
    requires Consistent(st)
    ensures Consistent(CreateMouFixed(st, req, rep).next)
  {
    var r := CreateMouFixed(st, req, rep);
    if r.status == Created {
      var m := MouRecord(req);
      var name := Trim(req.partnerInstitution.s);
      assert r.next == st.(mous := st.mous + [m], schools := Bump(st.schools, name, rep.newId));
      BumpTotals(st.schools, name, rep.newId);
      BumpKeepsNamesUnique(st.schools, name, rep.newId);
      forall n ensures Total(r.next.schools, n) == |Select(r.next.mous, ForSchool(n))| {
        SelectAppend(st.mous, m, ForSchool(n));
      }
      AppendKeepsMouIdsUnique(st.mous, m);
    }
  }

  /** The corrected Course route keeps the store invariant for every request
      and every store reply. */
  lemma {:induction false} CreateCourseFixedKeepsConsistent(st: State, req: CourseRequest, parse: DateParser, rep: StoreReplies)
    requires Consistent(st)
    ensures Consistent(CreateCourseFixed(st, req, parse, rep).next)
  {
    var r := CreateCourseFixed(st, req, parse, rep);
    if r.status == Created {
      var c := CourseRecord(req, parse);
      var name := Trim(req.field.s);
      assert r.next == st.(courses := st.courses + [c], fields := Bump(st.fields, name, rep.newId));
      BumpTotals(st.fields, name, rep.newId);
      BumpKeepsNamesUnique(st.fields, name, rep.newId);
      forall n ensures Total(r.next.fields, n) == |Select(r.next.courses, InField(n))| {
        SelectAppend(st.courses, c, InField(n));
      }
      AppendKeepsCourseIdsUnique(st.courses, c);
    }
  }

  /** On a trimmed `ID` with both writes succeeding, the corrected MOU route
      and the route as written do the same thing. */
  lemma CreateMouFixedMatchesWritten(st: State, req: MouRequest, rep: StoreReplies)
    requires req.id.Text? ==> IsTrimmed(req.id.s)
    requires rep.counterSave == Saved && rep.recordSave == Saved
    ensures CreateMouFixed(st, req, rep) == CreateMou(st, req, rep)
  {
    if req.id.Text? {
      TrimFixedIffTrimmed(req.id.s);
    }
  }

  /** On a trimmed `ID` with both writes succeeding, the corrected Course
      route and the route as written do the same thing. */
  lemma CreateCourseFixedMatchesWritten(st: State, req: CourseRequest, parse: DateParser, rep: StoreReplies)
    requires req.id.Text? ==> IsTrimmed(req.id.s)
    requires rep.counterSave == Saved && rep.recordSave == Saved
    ensures CreateCourseFixed(st, req, parse, rep) == CreateCourse(st, req, parse, rep)
  {
    if CourseComplete(req) && DepartmentsListed(req) {
      TrimFixedIffTrimmed(req.id.s);
      assert Trim(req.id.s) == req.id.s;
      if !HasCourseId(st.courses, req.id.s) && DatesOrdered(req, parse) {
        assert CourseReachesCounter(st, req, parse);
      }
    }
  }

  // ---------------------------------------------------------------------
  // Counterexamples for the routes as written.

  /** Appending a document whose key is already stored breaks uniqueness. */
  lemma AppendStoredKey<T>(s: seq<T>, x: T, key: T -> string)
    requires exists j :: 0 <= j < |s| && key(s[j]) == key(x)
    ensures !KeysUnique(s + [x], key)
  {
    var j :| 0 <= j < |s| && key(s[j]) == key(x);
    assert (s + [x])[j] == s[j] && (s + [x])[|s|] == x;
  }

  /** Every document's `key` carries no surrounding whitespace, as the
      routes store their keys. */
  predicate KeysTrimmed<T>(s: seq<T>, key: T -> string) {
    forall i :: 0 <= i < |s| ==> IsTrimmed(key(s[i]))
  }

  /** A request for a stored key `k` sent with one leading space, otherwise
      complete. */
  predicate IsPaddedDuplicate(st: State, req: MouRequest, k: string) {
    && HasMouId(st.mous, k)
    && KeysTrimmed(st.mous, MouKey)
    && req.id == Text([' '] + k)
    && Truthy(req.partnerInstitution) && Truthy(req.strategicAreas)
  }

  lemma PaddedPassesCheck(st: State, req: MouRequest, k: string)
    requires IsPaddedDuplicate(st, req, k)
    ensures MouReachesCounter(st, req)
    ensures MouRecord(req).id == k
  {
    assert ([' '] + k)[0] == ' ';
    assert !IsTrimmed(req.id.s);
    var j :| 0 <= j < |st.mous| && st.mous[j].id == k;
    assert IsTrimmed(k);
    TrimDropsLeadingSpace(' ', k);
    TrimFixedIffTrimmed(k);
  }

  /** The padded key passes the raw duplicate check; when the store accepts
      the write, two MOUs share the key. */
  lemma PaddedDuplicateStored(st: State, req: MouRequest, k: string, rep: StoreReplies)
    requires IsPaddedDuplicate(st, req, k)
    requires rep.counterSave == Saved && rep.recordSave == Saved
    ensures var r := CreateMou(st, req, rep);
      r.status == Created && !KeysUnique(r.next.mous, MouKey)
  {
    PaddedPassesCheck(st, req, k);
    AppendStoredKey(st.mous, MouRecord(req), MouKey);
  }

  /** When a unique index rejects the same write (409), the School count has
      already risen with no MOU behind it. */
  lemma PaddedDuplicateOvercounts(st: State, req: MouRequest, k: string, rep: StoreReplies)
    requires IsPaddedDuplicate(st, req, k) && SchoolsAgree(st)
    requires rep.counterSave == Saved && rep.recordSave == DuplicateKey
    ensures var r := CreateMou(st, req, rep);
      r.status == Conflict && !SchoolsAgree(r.next)
  {
    PaddedPassesCheck(st, req, k);
    FailedMouSaveOvercounts(st, req, rep);
  }

  /** The corrected route refuses the padded duplicate with 409 and writes
      nothing, whatever the store would have answered. */
  lemma PaddedDuplicateFixed(st: State, req: MouRequest, k: string, rep: StoreReplies)
    requires IsPaddedDuplicate(st, req, k)
    ensures CreateMouFixed(st, req, rep).status == Conflict
    ensures CreateMouFixed(st, req, rep).next == st
  {
    PaddedPassesCheck(st, req, k);
  }

  /** A Course request for a stored key `k` sent with one leading space,
      otherwise passing every check. */
  predicate IsPaddedCourseDuplicate(st: State, req: CourseRequest, parse: DateParser, k: string) {
    && HasCourseId(st.courses, k)
    && KeysTrimmed(st.courses, CourseKey)
    && req.id == Text([' '] + k)
    && Truthy(req.name) && Truthy(req.startDate) && Truthy(req.endDate) && Truthy(req.field)
    && DepartmentsListed(req)
    && DatesOrdered(req, parse)
  }

  lemma PaddedCoursePassesCheck(st: State, req: CourseRequest, parse: DateParser, k: string)
    requires IsPaddedCourseDuplicate(st, req, parse, k)
    ensures CourseReachesCounter(st, req, parse)
    ensures CourseRecord(req, parse).id == k
  {
    assert CourseComplete(req);
    assert ([' '] + k)[0] == ' ';
    assert !IsTrimmed(req.id.s);
    assert !HasCourseId(st.courses, req.id.s);
    var j :| 0 <= j < |st.courses| && st.courses[j].id == k;
    assert IsTrimmed(k);
    TrimDropsLeadingSpace(' ', k);
    TrimFixedIffTrimmed(k);
    assert CourseRecord(req, parse).id == Trim(req.id.s);
  }

  /** The padded key passes the raw duplicate check; when the store accepts
      the write, two Courses share the key. */
  lemma PaddedCourseStored(st: State, req: CourseRequest, parse: DateParser, k: string, rep: StoreReplies)
    requires IsPaddedCourseDuplicate(st, req, parse, k)
    requires rep.counterSave == Saved && rep.recordSave == Saved
    ensures var r := CreateCourse(st, req, parse, rep);
      r.status == Created && !KeysUnique(r.next.courses, CourseKey)
  {
    PaddedCoursePassesCheck(st, req, parse, k);
    AppendStoredKey(st.courses, CourseRecord(req, parse), CourseKey);
  }

  /** When a unique index rejects the same write (409), the Field count has
      already risen with no Course behind it. */
  lemma PaddedCourseOvercounts(st: State, req: CourseRequest, parse: DateParser, k: string, rep: StoreReplies)
    requires IsPaddedCourseDuplicate(st, req, parse, k) && FieldsAgree(st)
    requires rep.counterSave == Saved && rep.recordSave == DuplicateKey
    ensures var r := CreateCourse(st, req, parse, rep);
      r.status == Conflict && !FieldsAgree(r.next)
  {
    PaddedCoursePassesCheck(st, req, parse, k);
    FailedCourseSaveOvercounts(st, req, parse, rep);
  }

  /** The corrected route refuses the padded duplicate with 409 and writes
      nothing. */
  lemma PaddedCourseFixed(st: State, req: CourseRequest, parse: DateParser, k: string, rep: StoreReplies)
    requires IsPaddedCourseDuplicate(st, req, parse, k)
    ensures CreateCourseFixed(st, req, parse, rep).status == Conflict
    ensures CreateCourseFixed(st, req, parse, rep).next == st
  {
    PaddedCoursePassesCheck(st, req, parse, k);
  }

  // ---------------------------------------------------------------------
  // GET /api/schools/:schoolId, meant to be reached from an active School's
  // link: look the School up by id, then list the MOUs naming it.

  /** The reply of the corrected School detail route. */
  datatype SchoolReply = SchoolReply(
    status: int,
    success: bool,
    school: Option<Aggregate>,
    count: nat,
    data: seq<Mou>)

  function SchoolMousFixed(st: State, schoolId: string): (r: SchoolReply)
    ensures r.success <==> r.status == Ok
    ensures r.status in {Ok, NotFound, ServerError}
    ensures r.status == ServerError <==> !IsObjectId(schoolId)
    ensures r.status == NotFound <==>
              IsObjectId(schoolId) && forall j :: 0 <= j < |st.schools| ==> !SameObjectId(st.schools[j].id, schoolId)
    ensures r.status == Ok ==>
              && r.school.Some? && r.school.value in st.schools && SameObjectId(r.school.value.id, schoolId)
              && r.count == |r.data|
              && (forall m :: m in r.data <==> m in st.mous && m.partnerInstitution == r.school.value.name)
              && (forall m :: multiset(r.data)[m] ==
                    if m.partnerInstitution == r.school.value.name then multiset(st.mous)[m] else 0)
  {
    if !IsObjectId(schoolId) then
      SchoolReply(ServerError, false, None, 0, [])
    else
      match FindById(st.schools, schoolId)
      case None => SchoolReply(NotFound, false, None, 0, [])
      case Some(s) =>
        var mous := Select(st.mous, ForSchool(s.name));
        SelectExact(st.mous, ForSchool(s.name));
        SchoolReply(Ok, true, Some(s), |mous|, mous)
  }

  /** Following any active School's link through the corrected route lists
      as many MOUs as the link's count says. */
  lemma ActiveLinkFixedCountMatches(st: State, i: int)
    requires SchoolsAgree(st) && KeysUnique(st.schools, IdKey)
    requires 0 <= i < |st.schools| && IsObjectId(st.schools[i].id)
    ensures var r := SchoolMousFixed(st, st.schools[i].id);
      r.status == Ok && r.school == Some(st.schools[i]) && r.count == st.schools[i].count
  {
    SchoolsAgreeMeans(st);
    var k := FirstIndex(st.schools, HasObjectId(st.schools[i].id));
    assert k.Some?;
    assert k.value == i;
  }

  /** As written, the link's id is matched against partner names: when no
      School is named after another School's id, following the link of a
      School lists no MOU at all, whatever its count. */
  lemma ActiveLinkFindsNothing(st: State, i: int)
    requires SchoolsAgree(st)
    requires 0 <= i < |st.schools|
    requires st.schools[i].id !in Names(st.schools)
    ensures SchoolMous(st, st.schools[i].id).count == 0
    ensures st.schools[i].count == |Select(st.mous, ForSchool(st.schools[i].name))|
  {
    SchoolsAgreeMeans(st);
    TotalAbsent(st.schools, st.schools[i].id);
  }

  const LinkId := "65a1f0c2e4b0a1b2c3d4e5f6"
  const LinkState := State([Mou("M1", "Acme U", "AI")], [], [Aggregate(LinkId, "Acme U", 1)], [])

  /** A concrete store: the active listing shows Acme U with count 1 and a
      link to `/api/schools/<its id>`; the written route lists 0 MOUs for that
      id, the corrected route lists 1. */
  lemma ActiveLinkExample()
    ensures ActiveSchools(LinkState).data == [Link(LinkId, "Acme U", 1, SchoolsPath + LinkId)]
    ensures SchoolMous(LinkState, LinkId).count == 0
    ensures SchoolMousFixed(LinkState, LinkId).count == 1
  {
    var st := LinkState;
    assert st.schools[1..] == [] && st.mous[1..] == [];
    var active := Select(st.schools, IsActive);
    assert active == [st.schools[0]];
    var data := seq(|active|, i requires 0 <= i < |active| => AsLink(SchoolsPath, active[i]));
    assert data == [AsLink(SchoolsPath, st.schools[0])];
    assert ActiveSchools(st).data == data;
    LinkIdIsObjectId();
  }

  lemma LinkIdIsObjectId()
    ensures IsObjectId(LinkId)
  {
  }
}

=== FILE: counters.dfy ===
/** The denormalised aggregates of the store: one School per partner
    institution name and one Field per field name, each with a count, and the
    "find-or-create, else increment" step both creation routes run on them. */
module Counters {
  import opened Wrappers
  import opened Query

  /** A School (`name`) or a Field (`nameOfTheField`) document. */
  datatype Aggregate = Aggregate(id: string, name: string, count: int)

  function Named(name: string): Aggregate -> bool {
    (a: Aggregate) => a.name == name
  }

  function NameOf(a: Aggregate): string { a.name }

  /** The names that have an aggregate. */
  function Names(aggs: seq<Aggregate>): set<string> {
    set i | 0 <= i < |aggs| :: aggs[i].name
  }

  /** The sum of the counts held under `name`; with unique names this is the
      one count stored for `name`, or 0 when there is none. */
  function Total(aggs: seq<Aggregate>, name: string): int {
    if |aggs| == 0 then 0
    else (if aggs[0].name == name then aggs[0].count else 0) + Total(aggs[1..], name)
  }

  /** `findOne({name})`, then either `save()` of a new document with count 1
      (id `newId`, supplied by the store) or `count += 1; save()` on the one
      found. */
  function Bump(aggs: seq<Aggregate>, name: string, newId: string): (r: seq<Aggregate>)
    ensures name !in Names(aggs) ==> r == aggs + [Aggregate(newId, name, 1)]
    ensures name in Names(aggs) ==> |r| == |aggs|
    ensures forall i :: 0 <= i < |aggs| ==> r[i].id == aggs[i].id && r[i].name == aggs[i].name
    ensures forall i :: 0 <= i < |aggs| && aggs[i].name != name ==> r[i] == aggs[i]
  {
    match FirstIndex(aggs, Named(name))
    case None =>
      aggs + [Aggregate(newId, name, 1)]
    case Some(i) =>
      assert aggs[i].name == name;
      aggs[i := aggs[i].(count := aggs[i].count + 1)]
  }

  /** With unique names, the aggregate named `name` holds the whole total. */
  lemma {:induction false} TotalOfUnique(aggs: seq<Aggregate>, i: int)
    requires KeysUnique(aggs, NameOf)
    requires 0 <= i < |aggs|
    ensures Total(aggs, aggs[i].name) == aggs[i].count
  {
    if i == 0 {
      TotalAbsent(aggs[1..], aggs[0].name);
    } else {
      TotalOfUnique(aggs[1..], i - 1);
    }
  }

  /** A name without an aggregate has total 0. */
  lemma {:induction false} TotalAbsent(aggs: seq<Aggregate>, name: string)
    requires forall j :: 0 <= j < |aggs| ==> aggs[j].name != name
    ensures Total(aggs, name) == 0
  {
    if |aggs| > 0 {
      TotalAbsent(aggs[1..], name);
    }
  }

  lemma {:induction false} TotalAppend(aggs: seq<Aggregate>, a: Aggregate, name: string)
    ensures Total(aggs + [a], name) == Total(aggs, name) + (if a.name == name then a.count else 0)
  {
    if |aggs| > 0 {
      assert (aggs + [a])[1..] == aggs[1..] + [a];
      TotalAppend(aggs[1..], a, name);
    }
  }

  lemma {:induction false} TotalUpdate(aggs: seq<Aggregate>, i: int, a: Aggregate, name: string)
    requires 0 <= i < |aggs|
    ensures Total(aggs[i := a], name)
         == Total(aggs, name) - (if aggs[i].name == name then aggs[i].count else 0)
                              + (if a.name == name then a.count else 0)
  {
    if i > 0 {
      assert aggs[i := a][1..] == aggs[1..][i - 1 := a];
      TotalUpdate(aggs[1..], i - 1, a, name);
    }
  }

  /** Every creation adds exactly one to the total of its own name and leaves
      every other name's total as it was, and the name then has an aggregate. */
  lemma BumpTotals(aggs: seq<Aggregate>, name: string, newId: string)
    ensures forall n :: Total(Bump(aggs, name, newId), n)
                     == Total(aggs, n) + (if n == name then 1 else 0)
    ensures Names(Bump(aggs, name, newId)) == Names(aggs) + {name}
  {
    var r := Bump(aggs, name, newId);
    match FirstIndex(aggs, Named(name))
    case None =>
      forall n ensures Total(r, n) == Total(aggs, n) + (if n == name then 1 else 0) {
        TotalAppend(aggs, Aggregate(newId, name, 1), n);
      }
      assert r[|aggs|].name == name;
    case Some(i) =>
      assert aggs[i].name == name;
      forall n ensures Total(r, n) == Total(aggs, n) + (if n == name then 1 else 0) {
        TotalUpdate(aggs, i, aggs[i].(count := aggs[i].count + 1), n);
      }
  }

  /** Find-or-create never introduces a second aggregate for a name. */
  lemma BumpKeepsNamesUnique(aggs: seq<Aggregate>, name: string, newId: string)
    requires KeysUnique(aggs, NameOf)
    ensures KeysUnique(Bump(aggs, name, newId), NameOf)
  {
  }

  /** With unique names: a name seen before has its one count raised by
      exactly 1; an unseen name gets exactly one new aggregate with count 1. */
  lemma BumpUnique(aggs: seq<Aggregate>, name: string, newId: string)
    requires KeysUnique(aggs, NameOf)
    ensures var r := Bump(aggs, name, newId);
      && (name !in Names(aggs) ==> |r| == |aggs| + 1 && r[|aggs|] == Aggregate(newId, name, 1))
      && (forall i :: 0 <= i < |aggs| && aggs[i].name == name ==>
            |r| == |aggs| && r[i] == aggs[i].(count := aggs[i].count + 1))
  {
    var r := Bump(aggs, name, newId);
    forall i | 0 <= i < |aggs| && aggs[i].name == name
      ensures |r| == |aggs| && r[i] == aggs[i].(count := aggs[i].count + 1)
    {
      var k := FirstIndex(aggs, Named(name));
      assert aggs[i].name in Names(aggs);
      assert k.Some?;
      assert k.value == i;
    }
  }
}

=== FILE: course_routes.dfy ===
/** `POST /api/courses`: validate members, the department array and the
    dates, reject a known `ID`, count the Course against its Field, then store
    the Course. */
module CourseRoutes {
  import opened Wrappers
  import opened Text
  import opened Counters
  import opened Model

  /** The six required members are truthy (`completed` is optional). */
  predicate CourseComplete(req: CourseRequest) {
    && Truthy(req.id) && Truthy(req.name) && ListTruthy(req.eligibleDepartments)
    && Truthy(req.startDate) && Truthy(req.endDate) && Truthy(req.field)
  }

  /** `eligibleDepartments` is an array with at least one entry. */
  predicate DepartmentsListed(req: CourseRequest) {
    req.eligibleDepartments.List? && |req.eligibleDepartments.items| > 0
  }

  /** Both dates parse and the start is strictly before the end. */
  predicate DatesOrdered(req: CourseRequest, parse: DateParser)
    requires Truthy(req.startDate) && Truthy(req.endDate)
  {
    var s := parse(req.startDate.s);
    var e := parse(req.endDate.s);
    s.Some? && e.Some? && s.value < e.value
  }

  /** The request gets as far as the Field write. */
  predicate CourseReachesCounter(st: State, req: CourseRequest, parse: DateParser) {
    && CourseComplete(req)
    && DepartmentsListed(req)
    && !HasCourseId(st.courses, req.id.s)
    && DatesOrdered(req, parse)
  }

  /** `eligibleDepartments.map(dept => dept.trim())`. */
  function TrimAll(items: seq<string>): (r: seq<string>)
    ensures |r| == |items|
    ensures forall i :: 0 <= i < |items| ==> r[i] == Trim(items[i])
  {
    seq(|items|, i requires 0 <= i < |items| => Trim(items[i]))
  }

  /** `completed || 'no'`: the member as sent when truthy, otherwise "no". */
  function CompletedOrNo(v: Input): (flag: string)
    ensures |flag| > 0
    ensures Truthy(v) ==> flag == v.s
    ensures !Truthy(v) ==> flag == "no"
  {
    if Truthy(v) then v.s else "no"
  }

  /** The Course the route builds once every check has passed. */
  function CourseRecord(req: CourseRequest, parse: DateParser): (c: Course)
    requires CourseComplete(req) && DepartmentsListed(req) && DatesOrdered(req, parse)
    ensures IsTrimmed(c.id) && IsTrimmed(c.name) && IsTrimmed(c.field)
    ensures |c.eligibleDepartments| == |req.eligibleDepartments.items| > 0
    ensures forall i :: 0 <= i < |c.eligibleDepartments| ==> IsTrimmed(c.eligibleDepartments[i])
    ensures c.startDate < c.endDate
    // the contents come from the request
    ensures exists k :: IsCoreAt(req.id.s, c.id, k)
    ensures exists k :: IsCoreAt(req.name.s, c.name, k)
    ensures exists k :: IsCoreAt(req.field.s, c.field, k)
    ensures c.field == Trim(req.field.s)
    ensures c.eligibleDepartments == TrimAll(req.eligibleDepartments.items)
    ensures c.startDate == parse(req.startDate.s).value && c.endDate == parse(req.endDate.s).value
    ensures c.completed == CompletedOrNo(req.completed)
  {
    TrimIsCore(req.id.s);
    TrimIsCore(req.name.s);
    TrimIsCore(req.field.s);
    Course(
      Trim(req.id.s),
      Trim(req.name.s),
      TrimAll(req.eligibleDepartments.items),
      parse(req.startDate.s).value,
      parse(req.endDate.s).value,
      CompletedOrNo(req.completed),
      Trim(req.field.s))
  }

  /** Trimming every department changes nothing exactly when no department
      carries surrounding whitespace. */
  lemma TrimAllFixedIff(items: seq<string>)
    ensures TrimAll(items) == items <==> forall i :: 0 <= i < |items| ==> IsTrimmed(items[i])
  {
    var r := TrimAll(items);
    if r == items {
      forall i | 0 <= i < |items| ensures IsTrimmed(items[i]) {
        assert r[i] == Trim(items[i]);
      }
    }
    if forall i :: 0 <= i < |items| ==> IsTrimmed(items[i]) {
      forall i | 0 <= i < |items| ensures r[i] == items[i] {
        TrimFixedIffTrimmed(items[i]);
      }
      assert r == items;
    }
  }

  /** The record keeps the request's `ID`, `Name`, `field` and departments
      exactly when none of them carries surrounding whitespace. */
  lemma CourseRecordKeepsIff(req: CourseRequest, parse: DateParser)
    requires CourseComplete(req) && DepartmentsListed(req) && DatesOrdered(req, parse)
    ensures var c := CourseRecord(req, parse);
      var items := req.eligibleDepartments.items;
      (c.id == req.id.s && c.name == req.name.s && c.field == req.field.s && c.eligibleDepartments == items)
        <==> (&& IsTrimmed(req.id.s) && IsTrimmed(req.name.s) && IsTrimmed(req.field.s)
              && forall i :: 0 <= i < |items| ==> IsTrimmed(items[i]))
  {
    var c := CourseRecord(req, parse);
    assert c.id == Trim(req.id.s) && c.name == Trim(req.name.s) && c.field == Trim(req.field.s);
    assert c.eligibleDepartments == TrimAll(req.eligibleDepartments.items);
    TrimFixedIffTrimmed(req.id.s);
    TrimFixedIffTrimmed(req.name.s);
    TrimFixedIffTrimmed(req.field.s);
    TrimAllFixedIff(req.eligibleDepartments.items);
  }

  function CreateCourse(st: State, req: CourseRequest, parse: DateParser, rep: StoreReplies): (r: Handled<Course>)
    // the reply shape: `success` and a stored document exactly on 201
    ensures r.success <==> r.status == Created
    ensures r.created.Some? <==> r.status == Created
    ensures r.status in {Created, BadRequest, Conflict, ServerError}
    // MOUs and Schools are never touched
    ensures r.next.mous == st.mous && r.next.schools == st.schools
    // a missing member, or departments that are not a non-empty array: 400
    ensures !CourseComplete(req) || !DepartmentsListed(req) ==> r.status == BadRequest && r.next == st
    // a stored Course with the same raw `ID`, checked before the dates: 409
    ensures CourseComplete(req) && DepartmentsListed(req) && HasCourseId(st.courses, req.id.s) ==>
              r.status == Conflict && r.next == st
    // every check passes and both writes succeed: 201
    ensures CourseReachesCounter(st, req, parse) && rep.counterSave == Saved && rep.recordSave == Saved ==>
              r.status == Created
    // an unparsable date, or a start not before the end: 400
    ensures (CourseComplete(req) && DepartmentsListed(req) && !HasCourseId(st.courses, req.id.s)
             && !DatesOrdered(req, parse)) ==> r.status == BadRequest && r.next == st
    // a failed Field write: the mapped error and nothing written
    ensures CourseReachesCounter(st, req, parse) && rep.counterSave != Saved ==>
              r.status == ErrorStatus(rep.counterSave) && r.next == st
    // the Field collection changes only by the find-or-create step, after
    // every check has passed
    ensures r.next.fields == st.fields
         || (CourseReachesCounter(st, req, parse) && rep.counterSave == Saved
             && r.next.fields == Bump(st.fields, Trim(req.field.s), rep.newId))
    // the Course collection changes only by one appended Course on 201
    ensures r.status == Created ==>
              && CourseReachesCounter(st, req, parse)
              && r.created == Some(CourseRecord(req, parse))
              && r.next.courses == st.courses + [CourseRecord(req, parse)]
              && r.next.fields == Bump(st.fields, Trim(req.field.s), rep.newId)
    ensures r.status != Created ==> r.next.courses == st.courses
    // once every check passes, a saved Field write is kept
    ensures CourseReachesCounter(st, req, parse) && rep.counterSave == Saved ==>
              r.next.fields == Bump(st.fields, Trim(req.field.s), rep.newId)
    // the Field write persists even when the Course write fails
    ensures CourseReachesCounter(st, req, parse) && rep.counterSave == Saved && rep.recordSave != Saved ==>
              r.status == ErrorStatus(rep.recordSave)
              && r.next.fields == Bump(st.fields, Trim(req.field.s), rep.newId)
  {
    if !CourseComplete(req) then
      Refuse(BadRequest, st)
    else if !DepartmentsListed(req) then
      Refuse(BadRequest, st)
    else if HasCourseId(st.courses, req.id.s) then
      Refuse(Conflict, st)
    else if parse(req.startDate.s).None? || parse(req.endDate.s).None? then
      Refuse(BadRequest, st)
    else if parse(req.startDate.s).value >= parse(req.endDate.s).value then
      Refuse(BadRequest, st)
    else if rep.counterSave != Saved then
      Refuse(ErrorStatus(rep.counterSave), st)
    else
      var counted := st.(fields := Bump(st.fields, Trim(req.field.s), rep.newId));
      var course := CourseRecord(req, parse);
      if rep.recordSave != Saved then
        Refuse(ErrorStatus(rep.recordSave), counted)
      else
        Handled(Created, true, Some(course), counted.(courses := counted.courses + [course]))
  }
}

=== FILE: model.dfy ===
/** The documents, the store state, the request bodies and the store's replies
    that the MOU and Course routes work with. */
module Model {
  import opened Wrappers
  import opened Counters

  /** An MOU document: `ID`, `nameOfPartnerInstitution`, `strategicAreas`. */
  datatype Mou = Mou(id: string, partnerInstitution: string, strategicAreas: string)

  /** A Course document. Dates are timestamps; `field` names a Field by value. */
  datatype Course = Course(
    id: string,
    name: string,
    eligibleDepartments: seq<string>,
    startDate: int,
    endDate: int,
    completed: string,
    field: string)

  /** The business keys the unique indexes are on. */
  function MouKey(m: Mou): string { m.id }

  function CourseKey(c: Course): string { c.id }

  /** The four collections the routes touch, each in store order. */
  datatype State = State(
    mous: seq<Mou>,
    courses: seq<Course>,
    schools: seq<Aggregate>,
    fields: seq<Aggregate>)

  /** A string member of a JSON request body; `Absent` is a missing member or
      `null`. */
  datatype Input = Absent | Text(s: string)

  /** JavaScript truthiness of a string member: present and non-empty. */
  predicate Truthy(v: Input) {
    v.Text? && |v.s| > 0
  }

  /** The `eligibleDepartments` member: missing, a single string, or an array
      of strings. */
  datatype ListInput = NoList | Scalar(s: string) | List(items: seq<string>)

  /** JavaScript truthiness: every array is truthy, even an empty one. */
  predicate ListTruthy(v: ListInput) {
    match v
    case NoList => false
    case Scalar(s) => |s| > 0
    case List(_) => true
  }

  datatype MouRequest = MouRequest(id: Input, partnerInstitution: Input, strategicAreas: Input)

  datatype CourseRequest = CourseRequest(
    id: Input,
    name: Input,
    eligibleDepartments: ListInput,
    startDate: Input,
    endDate: Input,
    completed: Input,
    field: Input)

  /** How a document `save()` ends: stored, or rejected with a duplicate-key
      error (code 11000), a `ValidationError`, or any other error. */
  datatype SaveOutcome = Saved | DuplicateKey | ValidationFailed | StoreFailed

  /** What the store answers during one creation request: the id it gives a
      newly created School or Field, and how the aggregate's `save()` and the
      record's `save()` end. */
  datatype StoreReplies = StoreReplies(newId: string, counterSave: SaveOutcome, recordSave: SaveOutcome)

  /** Date parsing (`new Date(s)` followed by the `isNaN` test) is a parameter:
      `None` for an invalid date, otherwise a timestamp. */
  type DateParser = string -> Option<int>

  const Ok := 200
  const Created := 201
  const BadRequest := 400
  const NotFound := 404
  const Conflict := 409
  const ServerError := 500

  /** The `catch` block of both creation routes. */
  function ErrorStatus(o: SaveOutcome): (status: int)
    requires o != Saved
    ensures status in {BadRequest, Conflict, ServerError}
    ensures status == Conflict <==> o == DuplicateKey
    ensures status == BadRequest <==> o == ValidationFailed
  {
    match o
    case DuplicateKey => Conflict
    case ValidationFailed => BadRequest
    case StoreFailed => ServerError
  }

  /** The outcome of a creation route: status, `success` flag, the stored
      document on success, and the store state afterwards. */
  datatype Handled<T> = Handled(status: int, success: bool, created: Option<T>, next: State)

  function Refuse<T>(status: int, next: State): Handled<T> {
    Handled(status, false, None, next)
  }

  /** The MOU query filter `{ nameOfPartnerInstitution: name }`. */
  function ForSchool(name: string): Mou -> bool {
    (m: Mou) => m.partnerInstitution == name
  }

  /** The Course query filter `{ field: name }`. */
  function InField(name: string): Course -> bool {
    (c: Course) => c.field == name
  }

  /** The Course query filter `{ completed: flag }`. */
  function CompletedIs(flag: string): Course -> bool {
    (c: Course) => c.completed == flag
  }

  /** Some stored MOU has business key `id`. */
  predicate HasMouId(mous: seq<Mou>, id: string) {
    exists i :: 0 <= i < |mous| && mous[i].id == id
  }

  /** Some stored Course has business key `id`. */
  predicate HasCourseId(courses: seq<Course>, id: string) {
    exists i :: 0 <= i < |courses| && courses[i].id == id
  }
}

=== FILE: mou_routes.dfy ===
/** `POST /api/mous`: validate, reject a known `ID`, count the MOU against its
    School, then store the MOU. */
module MouRoutes {
  import opened Wrappers
  import opened Text
  import opened Counters
  import opened Model

  /** All three members are present and non-empty. */
  predicate MouComplete(req: MouRequest) {
    Truthy(req.id) && Truthy(req.partnerInstitution) && Truthy(req.strategicAreas)
  }

  /** The request gets as far as the School write: it is complete and no
      stored MOU has its `ID` exactly as sent. */
  predicate MouReachesCounter(st: State, req: MouRequest) {
    MouComplete(req) && !HasMouId(st.mous, req.id.s)
  }

  /** The MOU the route builds from a complete request: each member is the
      request's member with the surrounding whitespace cut off, and the
      partner name is the School key the route counts against. */
  function MouRecord(req: MouRequest): (m: Mou)
    requires MouComplete(req)
    ensures IsTrimmed(m.id) && IsTrimmed(m.partnerInstitution) && IsTrimmed(m.strategicAreas)
    ensures exists k :: IsCoreAt(req.id.s, m.id, k)
    ensures exists k :: IsCoreAt(req.partnerInstitution.s, m.partnerInstitution, k)
    ensures exists k :: IsCoreAt(req.strategicAreas.s, m.strategicAreas, k)
    ensures m.partnerInstitution == Trim(req.partnerInstitution.s)
  {
    TrimIsCore(req.id.s);
    TrimIsCore(req.partnerInstitution.s);
    TrimIsCore(req.strategicAreas.s);
    Mou(Trim(req.id.s), Trim(req.partnerInstitution.s), Trim(req.strategicAreas.s))
  }

  /** The record keeps the request's members exactly when they carry no
      surrounding whitespace. */
  lemma MouRecordKeepsIff(req: MouRequest)
    requires MouComplete(req)
    ensures MouRecord(req) == Mou(req.id.s, req.partnerInstitution.s, req.strategicAreas.s)
        <==> IsTrimmed(req.id.s) && IsTrimmed(req.partnerInstitution.s) && IsTrimmed(req.strategicAreas.s)
  {
    TrimFixedIffTrimmed(req.id.s);
    TrimFixedIffTrimmed(req.partnerInstitution.s);
    TrimFixedIffTrimmed(req.strategicAreas.s);
  }

  /** Sending a stored MOU's members back builds the same record again. */
  lemma MouRecordResubmit(req: MouRequest)
    requires MouComplete(req)
    ensures var m := MouRecord(req);
      var again := MouRequest(Text(m.id), Text(m.partnerInstitution), Text(m.strategicAreas));
      MouComplete(again) ==> MouRecord(again) == m
  {
    TrimIdempotent(req.id.s);
    TrimIdempotent(req.partnerInstitution.s);
    TrimIdempotent(req.strategicAreas.s);
  }

  function CreateMou(st: State, req: MouRequest, rep: StoreReplies): (r: Handled<Mou>)
    // the reply shape: `success` and a stored document exactly on 201
    ensures r.success <==> r.status == Created
    ensures r.created.Some? <==> r.status == Created
    ensures r.status in {Created, BadRequest, Conflict, ServerError}
    // Courses and Fields are never touched
    ensures r.next.courses == st.courses && r.next.fields == st.fields
    // a missing or empty member: 400 and nothing written
    ensures !MouComplete(req) ==> r.status == BadRequest && r.next == st
    // a stored MOU with the same raw `ID`: 409 and nothing written
    ensures MouComplete(req) && HasMouId(st.mous, req.id.s) ==> r.status == Conflict && r.next == st
    // both writes succeed: 201, the School counted and the MOU appended
    ensures MouReachesCounter(st, req) && rep.counterSave == Saved && rep.recordSave == Saved ==>
              r.status == Created
    // a failed School write: the mapped error and nothing written
    ensures MouReachesCounter(st, req) && rep.counterSave != Saved ==>
              r.status == ErrorStatus(rep.counterSave) && r.next == st
    // the School collection changes only by the find-or-create step, and only
    // once validation and the duplicate check have passed
    ensures r.next.schools == st.schools
         || (MouReachesCounter(st, req) && rep.counterSave == Saved
             && r.next.schools == Bump(st.schools, Trim(req.partnerInstitution.s), rep.newId))
    // the MOU collection changes only by one appended, trimmed MOU on 201
    ensures r.status == Created ==>
              && MouReachesCounter(st, req)
              && r.created == Some(MouRecord(req))
              && r.next.mous == st.mous + [MouRecord(req)]
              && r.next.schools == Bump(st.schools, Trim(req.partnerInstitution.s), rep.newId)
    ensures r.status != Created ==> r.next.mous == st.mous
    // once validation and the duplicate check pass, a saved School write is kept
    ensures MouReachesCounter(st, req) && rep.counterSave == Saved ==>
              r.next.schools == Bump(st.schools, Trim(req.partnerInstitution.s), rep.newId)
    // the School write persists even when the MOU write fails
    ensures MouReachesCounter(st, req) && rep.counterSave == Saved && rep.recordSave != Saved ==>
              r.status == ErrorStatus(rep.recordSave)
              && r.next.schools == Bump(st.schools, Trim(req.partnerInstitution.s), rep.newId)
  {
    if !MouComplete(req) then
      Refuse(BadRequest, st)
    else if HasMouId(st.mous, req.id.s) then
      Refuse(Conflict, st)
    else if rep.counterSave != Saved then
      Refuse(ErrorStatus(rep.counterSave), st)
    else
      var counted := st.(schools := Bump(st.schools, Trim(req.partnerInstitution.s), rep.newId));
      var mou := MouRecord(req);
      if rep.recordSave != Saved then
        Refuse(ErrorStatus(rep.recordSave), counted)
      else
        Handled(Created, true, Some(mou), counted.(mous := counted.mous + [mou]))
  }
}

=== FILE: query.dfy ===
/** The two store queries the routes use, over a collection held in insertion
    order: `find(filter)` and `findOne(filter)`. */
module Query {
  import opened Wrappers

  /** No two documents share a `key`: what a unique index enforces. */
  predicate KeysUnique<T, K(==)>(s: seq<T>, key: T -> K) {
    forall i, j :: 0 <= i < j < |s| ==> key(s[i]) != key(s[j])
  }

  /** `find(filter)`: the documents satisfying `p`, in store order. */
  function Select<T>(s: seq<T>, p: T -> bool): (r: seq<T>)
    ensures |r| <= |s|
  {
    if |s| == 0 then [] else (if p(s[0]) then [s[0]] else []) + Select(s[1..], p)
  }

  /** The result of `find` holds exactly the documents satisfying the filter,
      each as many times as the collection holds it. */
  lemma {:induction false} SelectExact<T(!new)>(s: seq<T>, p: T -> bool)
    ensures forall x :: x in Select(s, p) <==> x in s && p(x)
    ensures forall x :: multiset(Select(s, p))[x] == if p(x) then multiset(s)[x] else 0
  {
    if |s| > 0 {
      SelectExact(s[1..], p);
      assert s == [s[0]] + s[1..];
      assert multiset(s) == multiset{s[0]} + multiset(s[1..]);
    }
  }

  /** Adding a document at the end of a collection adds it at the end of
      every query result it satisfies, and changes no other result. */
  lemma {:induction false} SelectAppend<T>(s: seq<T>, x: T, p: T -> bool)
    ensures Select(s + [x], p) == Select(s, p) + (if p(x) then [x] else [])
  {
    var t := s + [x];
    if |s| == 0 {
      assert t == [x];
      assert Select(t, p) == (if p(x) then [x] else []) + Select([], p);
    } else {
      var head := if p(s[0]) then [s[0]] else [];
      var tail := if p(x) then [x] else [];
      assert t[0] == s[0] && t[1..] == s[1..] + [x];
      assert Select(t, p) == head + Select(s[1..] + [x], p);
      SelectAppend(s[1..], x, p);
      assert Select(s, p) == head + Select(s[1..], p);
      assert Select(t, p) == head + (Select(s[1..], p) + tail);
    }
  }

  /** Two filters that split a collection between them select, together,
      every document exactly once. */
  lemma {:induction false} SelectSplit<T>(s: seq<T>, p: T -> bool, q: T -> bool)
    requires forall i :: 0 <= i < |s| ==> (p(s[i]) <==> !q(s[i]))
    ensures |Select(s, p)| + |Select(s, q)| == |s|
  {
    if |s| > 0 {
      SelectSplit(s[1..], p, q);
    }
  }

  /** `findOne(filter)`: the position of the first document satisfying `p`. */
  function FirstIndex<T>(s: seq<T>, p: T -> bool): (r: Option<nat>)
    ensures r.None? ==> forall j :: 0 <= j < |s| ==> !p(s[j])
    ensures r.Some? ==> r.value < |s| && p(s[r.value])
                        && forall j :: 0 <= j < r.value ==> !p(s[j])
  {
    if |s| == 0 then None
    else if p(s[0]) then Some(0)
    else match FirstIndex(s[1..], p)
      case None => None
      case Some(k) => Some(k + 1)
  }
}

=== FILE: read_routes.dfy ===
/** The GET routes: listings and filters over the store state. A store read
    cannot fail in this model. */
module ReadRoutes {
  import opened Wrappers
  import opened Query
  import opened Counters
  import opened Model

  /** The `{ success, count, data }` envelope of a listing. */
  datatype Listing<T> = Listing(success: bool, count: nat, data: seq<T>)

  /** A School or Field as the link listings show it. */
  datatype Link = Link(id: string, name: string, count: int, link: string)

  /** The reply of `GET /api/fields/:fieldId`. */
  datatype FieldReply = FieldReply(
    status: int,
    success: bool,
    field: Option<Aggregate>,
    coursesCount: nat,
    courses: seq<Course>)

  const SchoolsPath := "/api/schools/"
  const FieldsPath := "/api/fields/"

  predicate IsHexDigit(c: char) {
    ('0' <= c <= '9') || ('a' <= c <= 'f') || ('A' <= c <= 'F')
  }

  /** A path parameter `findById` can cast to an object id: 24 hex digits. */
  predicate IsObjectId(s: string) {
    |s| == 24 && forall i :: 0 <= i < |s| ==> IsHexDigit(s[i])
  }

  function AsLink(path: string, a: Aggregate): Link {
    Link(a.id, a.name, a.count, path + a.id)
  }

  predicate IsActive(a: Aggregate) {
    a.count > 0
  }

  /** A hex digit as the object-id cast reads it: `A`-`F` mean `a`-`f`. */
  function LowerHexDigit(c: char): (d: char)
    ensures d != c <==> 'A' <= c <= 'F'
    ensures !('A' <= d <= 'F')
  {
    if 'A' <= c <= 'F' then (c as int + 32) as char else c
  }

  /** The lower-case spelling of an id: two spellings name the same object id
      exactly when these agree. */
  function LowerHex(s: string): (r: string)
    ensures |r| == |s|
    ensures forall i :: 0 <= i < |s| ==> r[i] == LowerHexDigit(s[i])
  {
    seq(|s|, i requires 0 <= i < |s| => LowerHexDigit(s[i]))
  }

  /** Lower-casing an id twice is lower-casing it once. */
  lemma LowerHexIdempotent(s: string)
    ensures LowerHex(LowerHex(s)) == LowerHex(s)
  {
    var r := LowerHex(s);
    forall i | 0 <= i < |r| ensures LowerHex(r)[i] == r[i] {
      assert !('A' <= r[i] <= 'F');
    }
  }

  /** The stored id and the path parameter name the same object id. */
  predicate SameObjectId(stored: string, param: string) {
    LowerHex(stored) == LowerHex(param)
  }

  /** The object id an aggregate's id names, for uniqueness of ids. */
  function IdKey(a: Aggregate): string { LowerHex(a.id) }

  function HasObjectId(id: string): Aggregate -> bool {
    (a: Aggregate) => SameObjectId(a.id, id)
  }

  /** `findById(id)` on an aggregate collection: the first aggregate whose
      id names the same object id as the parameter. */
  function FindById(aggs: seq<Aggregate>, id: string): (r: Option<Aggregate>)
    ensures r.None? <==> forall j :: 0 <= j < |aggs| ==> !SameObjectId(aggs[j].id, id)
    ensures r.Some? ==> exists k :: 0 <= k < |aggs| && aggs[k] == r.value && SameObjectId(aggs[k].id, id)
                          && forall j :: 0 <= j < k ==> !SameObjectId(aggs[j].id, id)
  {
    match FirstIndex(aggs, HasObjectId(id))
    case None => None
    case Some(i) => Some(aggs[i])
  }

  /** The lookup depends on the object id alone, not on how the parameter
      spells its hex digits. */
  lemma FindByIdIgnoresCase(aggs: seq<Aggregate>, id: string)
    ensures FindById(aggs, id) == FindById(aggs, LowerHex(id))
  {
    LowerHexIdempotent(id);
    var a := FirstIndex(aggs, HasObjectId(id));
    var b := FirstIndex(aggs, HasObjectId(LowerHex(id)));
    assert forall j :: 0 <= j < |aggs| ==> (HasObjectId(id)(aggs[j]) <==> HasObjectId(LowerHex(id))(aggs[j]));
    if a.Some? && b.Some? {
      assert a.value == b.value;
    }
  }

  /** `GET /api/mous`. */
  function ListMous(st: State): (r: Listing<Mou>)
    ensures r.success && r.count == |r.data|
    ensures r.data == st.mous
  {
    Listing(true, |st.mous|, st.mous)
  }

  /** The listing of `find(filter)` on Courses. */
  function CoursesWhere(st: State, flag: string): (r: Listing<Course>)
    ensures r.success && r.count == |r.data|
    ensures forall c :: c in r.data <==> c in st.courses && c.completed == flag
    ensures forall c :: multiset(r.data)[c] == if c.completed == flag then multiset(st.courses)[c] else 0
  {
    var data := Select(st.courses, CompletedIs(flag));
    SelectExact(st.courses, CompletedIs(flag));
    Listing(true, |data|, data)
  }

  /** `GET /api/courses/running`: exactly the Courses with `completed` "no". */
  function RunningCourses(st: State): (r: Listing<Course>)
    ensures r.success && r.count == |r.data|
    ensures forall c :: c in r.data <==> c in st.courses && c.completed == "no"
    ensures forall c :: multiset(r.data)[c] == if c.completed == "no" then multiset(st.courses)[c] else 0
  {
    CoursesWhere(st, "no")
  }

  /** `GET /api/courses/completed`: exactly the Courses with `completed` "yes". */
  function CompletedCourses(st: State): (r: Listing<Course>)
    ensures r.success && r.count == |r.data|
    ensures forall c :: c in r.data <==> c in st.courses && c.completed == "yes"
    ensures forall c :: multiset(r.data)[c] == if c.completed == "yes" then multiset(st.courses)[c] else 0
  {
    CoursesWhere(st, "yes")
  }

  /** No Course is both running and completed; when every stored `completed`
      is "yes" or "no", the two listings together count every Course. */
  lemma RunningCompletedPartition(st: State)
    ensures forall c :: !(c in RunningCourses(st).data && c in CompletedCourses(st).data)
    ensures (forall i :: 0 <= i < |st.courses| ==> st.courses[i].completed in {"yes", "no"}) ==>
              RunningCourses(st).count + CompletedCourses(st).count == |st.courses|
  {
    if forall i :: 0 <= i < |st.courses| ==> st.courses[i].completed in {"yes", "no"} {
      SelectSplit(st.courses, CompletedIs("no"), CompletedIs("yes"));
    }
  }

  /** The links of a collection hold each link as often as the collection
      holds its aggregate: a link determines the aggregate it shows. */
  lemma {:induction false} LinksCount(path: string, xs: seq<Aggregate>, a: Aggregate)
    ensures multiset(seq(|xs|, i requires 0 <= i < |xs| => AsLink(path, xs[i])))[AsLink(path, a)]
         == multiset(xs)[a]
  {
    if |xs| > 0 {
      var t := xs[1..];
      LinksCount(path, t, a);
      var d := seq(|xs|, i requires 0 <= i < |xs| => AsLink(path, xs[i]));
      var dt := seq(|t|, i requires 0 <= i < |t| => AsLink(path, t[i]));
      assert d == [AsLink(path, xs[0])] + dt;
      assert xs == [xs[0]] + t;
      assert AsLink(path, xs[0]) == AsLink(path, a) <==> xs[0] == a;
    }
  }

  /** `GET /api/schools/active`: a link for exactly the Schools with a
      positive count, in store order, each pointing at `/api/schools/<id>`. */
  function ActiveSchools(st: State): (r: Listing<Link>)
    ensures r.success && r.count == |r.data|
    ensures forall i :: 0 <= i < |r.data| ==> r.data[i].link == SchoolsPath + r.data[i].id && r.data[i].count > 0
    ensures forall a :: AsLink(SchoolsPath, a) in r.data <==> a in st.schools && a.count > 0
    ensures forall a :: multiset(r.data)[AsLink(SchoolsPath, a)] ==
              if a.count > 0 then multiset(st.schools)[a] else 0
  {
    var active := Select(st.schools, IsActive);
    SelectExact(st.schools, IsActive);
    var data := seq(|active|, i requires 0 <= i < |active| => AsLink(SchoolsPath, active[i]));
    forall a ensures multiset(data)[AsLink(SchoolsPath, a)] == if a.count > 0 then multiset(st.schools)[a] else 0 {
      LinksCount(SchoolsPath, active, a);
      assert AsLink(SchoolsPath, a) in data <==> AsLink(SchoolsPath, a) in multiset(data);
      assert a in st.schools <==> a in multiset(st.schools);
    }
    Listing(true, |data|, data)
  }

  /** `GET /api/schools/:schoolId`: the MOUs whose `nameOfPartnerInstitution`
      equals the path parameter as written. */
  function SchoolMous(st: State, schoolId: string): (r: Listing<Mou>)
    ensures r.success && r.count == |r.data|
    ensures forall m :: m in r.data <==> m in st.mous && m.partnerInstitution == schoolId
    ensures forall m :: multiset(r.data)[m] == if m.partnerInstitution == schoolId then multiset(st.mous)[m] else 0
  {
    var data := Select(st.mous, ForSchool(schoolId));
    SelectExact(st.mous, ForSchool(schoolId));
    Listing(true, |data|, data)
  }

  /** `GET /api/fields`: a link for every Field, pointing at `/api/fields/<id>`. */
  function ListFields(st: State): (r: Listing<Link>)
    ensures r.success && r.count == |r.data| == |st.fields|
    ensures forall i :: 0 <= i < |r.data| ==>
              r.data[i] == Link(st.fields[i].id, st.fields[i].name, st.fields[i].count, FieldsPath + st.fields[i].id)
  {
    var data := seq(|st.fields|, i requires 0 <= i < |st.fields| => AsLink(FieldsPath, st.fields[i]));
    Listing(true, |data|, data)
  }

  /** `GET /api/fields/:fieldId`: 500 when the parameter cannot be cast to an
      object id, 404 when no Field has it, otherwise that Field and exactly the
      Courses whose `field` is its name. */
  function FieldDetail(st: State, fieldId: string): (r: FieldReply)
    ensures r.success <==> r.status == Ok
    ensures r.status in {Ok, NotFound, ServerError}
    ensures r.status == ServerError <==> !IsObjectId(fieldId)
    ensures r.status == NotFound <==>
              IsObjectId(fieldId) && forall j :: 0 <= j < |st.fields| ==> !SameObjectId(st.fields[j].id, fieldId)
    ensures r.status == Ok ==>
              && r.field.Some? && r.field.value in st.fields && SameObjectId(r.field.value.id, fieldId)
              && r.coursesCount == |r.courses|
              && (forall c :: c in r.courses <==> c in st.courses && c.field == r.field.value.name)
              && (forall c :: multiset(r.courses)[c] == if c.field == r.field.value.name then multiset(st.courses)[c] else 0)
  {
    if !IsObjectId(fieldId) then
      FieldReply(ServerError, false, None, 0, [])
    else
      match FindById(st.fields, fieldId)
      case None => FieldReply(NotFound, false, None, 0, [])
      case Some(f) =>
        var courses := Select(st.courses, InField(f.name));
        SelectExact(st.courses, InField(f.name));
        FieldReply(Ok, true, Some(f), |courses|, courses)
  }

  /** A Field stored under an id in lower-case hex is found when the path
      spells the same id in upper case. */
  lemma UpperCaseFieldIdFound()
    ensures var st := State([], [], [], [Aggregate("65a1f0c2e4b0a1b2c3d4e5f6", "CS", 1)]);
      var r := FieldDetail(st, "65A1F0C2E4B0A1B2C3D4E5F6");
      r.status == Ok && r.field == Some(st.fields[0])
  {
    UpperCaseIsObjectId();
    UpperCaseLowers();
    LowerCaseStays();
  }

  lemma UpperCaseIsObjectId()
    ensures IsObjectId("65A1F0C2E4B0A1B2C3D4E5F6")
  {
  }

  lemma UpperCaseLowers()
    ensures LowerHex("65A1F0C2E4B0A1B2C3D4E5F6") == "65a1f0c2e4b0a1b2c3d4e5f6"
  {
  }

  lemma LowerCaseStays()
    ensures LowerHex("65a1f0c2e4b0a1b2c3d4e5f6") == "65a1f0c2e4b0a1b2c3d4e5f6"
  {
  }
}

=== FILE: sessions.dfy ===
/** Sequences of creation requests against one store, each request handled
    to completion before the next. */
module Sessions {
  import opened Text
  import opened Counters
  import opened Model
  import opened MouRoutes
  import opened CourseRoutes
  import opened Consistency
  import opened Corrected

  datatype Post = PostMou(mou: MouRequest) | PostCourse(course: CourseRequest)

  /** One request together with the store's replies while handling it. */
  datatype Call = Call(post: Post, rep: StoreReplies)

  function Step(st: State, call: Call, parse: DateParser): State {
    match call.post
    case PostMou(req) => CreateMou(st, req, call.rep).next
    case PostCourse(req) => CreateCourse(st, req, parse, call.rep).next
  }

  function StepFixed(st: State, call: Call, parse: DateParser): State {
    match call.post
    case PostMou(req) => CreateMouFixed(st, req, call.rep).next
    case PostCourse(req) => CreateCourseFixed(st, req, parse, call.rep).next
  }

  function Replay(st: State, calls: seq<Call>, parse: DateParser): State
    decreases |calls|
  {
    if |calls| == 0 then st else Replay(Step(st, calls[0], parse), calls[1..], parse)
  }

  function ReplayFixed(st: State, calls: seq<Call>, parse: DateParser): State
    decreases |calls|
  {
    if |calls| == 0 then st else ReplayFixed(StepFixed(st, calls[0], parse), calls[1..], parse)
  }

  /** The request's `ID`, when sent, is already trimmed, and the record write
      does not fail. */
  predicate WellBehaved(call: Call) {
    && call.rep.recordSave == Saved
    && match call.post
       case PostMou(req) => req.id.Text? ==> IsTrimmed(req.id.s)
       case PostCourse(req) => req.id.Text? ==> IsTrimmed(req.id.s)
  }

  /** The routes as written keep the store consistent over any run of
      well-behaved requests. */
  lemma {:induction false} ReplayKeepsConsistent(st: State, calls: seq<Call>, parse: DateParser)
    requires Consistent(st)
    requires forall i :: 0 <= i < |calls| ==> WellBehaved(calls[i])
    ensures Consistent(Replay(st, calls, parse))
    decreases |calls|
  {
    if |calls| > 0 {
      var call := calls[0];
      assert WellBehaved(call);
      match call.post {
        case PostMou(req) => { CreateMouKeepsConsistent(st, req, call.rep); }
        case PostCourse(req) => { CreateCourseKeepsConsistent(st, req, parse, call.rep); }
      }
      ReplayKeepsConsistent(Step(st, call, parse), calls[1..], parse);
    }
  }

  /** The corrected routes keep the store consistent over any run of
      requests, whatever the store replies. */
  lemma {:induction false} ReplayFixedKeepsConsistent(st: State, calls: seq<Call>, parse: DateParser)
    requires Consistent(st)
    ensures Consistent(ReplayFixed(st, calls, parse))
    decreases |calls|
  {
    if |calls| > 0 {
      var call := calls[0];
      match call.post {
        case PostMou(req) => { CreateMouFixedKeepsConsistent(st, req, call.rep); }
        case PostCourse(req) => { CreateCourseFixedKeepsConsistent(st, req, parse, call.rep); }
      }
      ReplayFixedKeepsConsistent(StepFixed(st, call, parse), calls[1..], parse);
    }
  }

  /** From an empty store, with trimmed members: MOU `m1` for `school` is
      created and the School gets count 1; `m1` again is refused with 409 and
      changes nothing; MOU `m2` for the same school is created and the count
      becomes 2. */
  lemma RepeatedSchoolScenario(m1: string, m2: string, school: string, areas: string, rep: StoreReplies)
    requires m1 != [] && m2 != [] && school != [] && areas != [] && m1 != m2
    requires IsTrimmed(m1) && IsTrimmed(m2) && IsTrimmed(school) && IsTrimmed(areas)
    requires rep.counterSave == Saved && rep.recordSave == Saved
    ensures var r1 := CreateMou(State([], [], [], []), MouRequest(Text(m1), Text(school), Text(areas)), rep);
      && r1.status == Created && r1.next.schools == [Aggregate(rep.newId, school, 1)]
      && var r2 := CreateMou(r1.next, MouRequest(Text(m1), Text(school), Text(areas)), rep);
      && r2.status == Conflict && r2.next == r1.next
      && var r3 := CreateMou(r2.next, MouRequest(Text(m2), Text(school), Text(areas)), rep);
      && r3.status == Created && r3.next.schools == [Aggregate(rep.newId, school, 2)]
      && r3.next.mous == [Mou(m1, school, areas), Mou(m2, school, areas)]
  {
    TrimFixedIffTrimmed(m1);
    TrimFixedIffTrimmed(m2);
    TrimFixedIffTrimmed(school);
    TrimFixedIffTrimmed(areas);
    var first := MouRequest(Text(m1), Text(school), Text(areas));
    var r1 := CreateMou(State([], [], [], []), first, rep);
    assert r1.next.mous == [Mou(m1, school, areas)];
    assert r1.next.mous[0].id == m1;
    assert HasMouId(r1.next.mous, m1);
    var r2 := CreateMou(r1.next, first, rep);
    assert !HasMouId(r2.next.mous, m2);
    BumpUnique(r1.next.schools, school, rep.newId);
    assert school in Names(r1.next.schools);
  }
}

=== FILE: text.dfy ===
/** The string operations the route handlers rely on: JavaScript truthiness of
    a string and `String.prototype.trim`. */
module Text {

  /** The characters `trim` removes: the WhiteSpace and LineTerminator code
      points of the ECMAScript grammar (tab, vertical tab, form feed, space,
      no-break space, byte-order mark, the Unicode space separators, and the
      four line terminators). */
  predicate IsSpace(c: char) {
    || c == ' '
    || ('\t' <= c <= '\r')
    || (c >= '\U{00A0}' && (
         || c == '\U{00A0}' || c == '\U{1680}' || ('\U{2000}' <= c <= '\U{200A}')
         || c == '\U{2028}' || c == '\U{2029}' || c == '\U{202F}' || c == '\U{205F}'
         || c == '\U{3000}' || c == '\U{FEFF}'))
  }

  /** A string `trim` leaves as it is: no whitespace at either end. */
  predicate IsTrimmed(s: string) {
    s == [] || (!IsSpace(s[0]) && !IsSpace(s[|s| - 1]))
  }

  /** Drops the longest all-whitespace prefix. */
  function TrimStart(s: string): (r: string)
    ensures |r| <= |s| && r == s[|s| - |r|..]
    ensures forall i :: 0 <= i < |s| - |r| ==> IsSpace(s[i])
    ensures r == [] || !IsSpace(r[0])
    decreases |s|
  {
    if |s| > 0 && IsSpace(s[0]) then TrimStart(s[1..]) else s
  }

  /** Drops the longest all-whitespace suffix. */
  function TrimEnd(s: string): (r: string)
    ensures |r| <= |s| && r == s[..|r|]
    ensures forall i :: |r| <= i < |s| ==> IsSpace(s[i])
    ensures r == [] || !IsSpace(r[|r| - 1])
    decreases |s|
  {
    if |s| > 0 && IsSpace(s[|s| - 1]) then TrimEnd(s[..|s| - 1]) else s
  }

  /** `r` is the slice of `s` starting at `k` with only whitespace around it. */
  predicate IsCoreAt(s: string, r: string, k: int) {
    && 0 <= k <= |s| - |r|
    && r == s[k..k + |r|]
    && (forall i :: 0 <= i < k ==> IsSpace(s[i]))
    && (forall i :: k + |r| <= i < |s| ==> IsSpace(s[i]))
  }

  /** `s.trim()`: what is left of `s` after removing every leading and every
      trailing whitespace character. */
  function Trim(s: string): (r: string)
    ensures IsTrimmed(r)
    ensures |r| <= |s|
  {
    var t := TrimStart(s);
    var r := TrimEnd(t);
    assert r != [] ==> r[0] == t[0];
    r
  }

  /** `trim` keeps a contiguous slice of its input and removes only
      whitespace around it; with `IsTrimmed` this determines the result. */
  lemma TrimIsCore(s: string)
    ensures exists k :: IsCoreAt(s, Trim(s), k)
  {
    var t := TrimStart(s);
    var r := TrimEnd(t);
    var k := |s| - |t|;
    assert t == s[k..];
    assert r == s[k..k + |r|] by {
      assert r == t[..|r|];
    }
    forall i | k + |r| <= i < |s| ensures IsSpace(s[i]) {
      assert s[i] == t[i - k];
    }
    assert IsCoreAt(s, r, k);
    assert Trim(s) == r;
  }

  /** A string made only of whitespace is truthy in JavaScript but trims to
      the empty string, and conversely. */
  lemma TrimEmptyIffBlank(s: string)
    ensures Trim(s) == [] <==> forall i :: 0 <= i < |s| ==> IsSpace(s[i])
  {
  }

  /** `trim` changes a string exactly when it has whitespace at an end. */
  lemma TrimFixedIffTrimmed(s: string)
    ensures Trim(s) == s <==> IsTrimmed(s)
  {
    if IsTrimmed(s) && s != [] {
      assert TrimStart(s) == s;
      assert TrimEnd(s) == s;
    }
  }

  /** A leading whitespace character never survives `trim`. */
  lemma TrimDropsLeadingSpace(c: char, s: string)
    requires IsSpace(c)
    ensures Trim([c] + s) == Trim(s)
  {
    assert ([c] + s)[1..] == s;
  }

  /** Trimming twice is trimming once. */
  lemma TrimIdempotent(s: string)
    ensures Trim(Trim(s)) == Trim(s)
  {
    TrimFixedIffTrimmed(Trim(s));
  }
}

=== FILE: wrappers.dfy ===
/** Optional values, used for store lookups that may find nothing and for
    date strings that may not parse. */
module Wrappers {

  datatype Option<+T> = None | Some(value: T)
}
